=== FILE: README.md ===
# RDBC pooling core in Dafny

This is a model of the pooling and dispatch core of RDBC, a Swift
database-connectivity façade. It has five parts.

- **ResourcePool** (`resource_pool.dfy`) is the generic bounded pool. Its state
  is a remaining creation budget, an idle cache and a FIFO queue of waiting
  promises. The source runs every acquire (the pool iterator's `next`) and
  every `reclaim` as one block on the pool's execution context, which
  `ConnectionPool` creates serial (`RDBC.swift:133`). So each one is an
  atomic transition on an immutable record, and promises are waiter ids.
  The record also has two fields the source does not have: a counter of
  factory calls and a supply of fresh waiter ids. They make the capacity
  bound and waiter freshness expressible.
- **ConnectionPool** (`connection_pool.dfy`) covers `connection()` and
  `execute`. The outcome of the factory is a parameter. The query is a
  function from the leased connection to its outcome.
- **Rdbc** (`rdbc.dfy`) is the driver registry. It covers registration by
  scheme, driver resolution with its three ordered failures, Swift's
  `UInt(String)` parse, the pool-size rule and pool construction.
- **ResultSets** (`result_sets.dfy`) covers `rows()` and `dictionaries()`.
  A cursor is represented by the replies its successive `next()` calls give:
  a row, end-of-data, or a thrown error.
- **MockSyncDriver** (`mock_sync_driver.dfy`) is the in-memory test driver:
  the `MSResultSet` cursor, `MSConnection.execute` and the `MSDriver`
  constants (`MS_DRIVER`: scheme "ms", limit 1, recommended size 1).
  **PoolTests** (`pool_tests.dfy`) states end-to-end scenarios over it.

Facts about the code that shape the model:

- The idle cache is FIFO. `reclaim` appends at the tail (`RDBC.swift:50`)
  and acquire removes the head (`RDBC.swift:62`). So a reclaimed resource is
  served by the next acquire only when the cache was empty (`CacheReuse`);
  in general the cache obeys the FIFO law `CacheLaw`.
- The pool-size rule takes the greater of the driver's `poolSizeLimit` and
  the requested size (`RDBC.swift:175-177`). The limit therefore acts as a
  floor, not a ceiling (`OverrideAboveLimit`, `OverrideBelowLimit`).
- A `next()` that throws fails `rows()` with that error, and the rows read
  before it are dropped (`RDBC.swift:101-111`, `RowsOfFailure`). A failing
  `columns` fails `dictionaries()` before any row is read
  (`RDBC.swift:117-125`).

## Model

| member | source | states |
|---|---|---|
| ResourcePool.Init | Sources/RDBC/RDBC.swift:35-41 | a new pool has the full budget, an empty cache, an empty queue and no factory calls, and satisfies the pool invariant |
| ResourcePool.Acquire | Sources/RDBC/RDBC.swift:58-77 | a non-empty cache serves and removes its head, leaving budget and queue unchanged; otherwise a positive budget drops by exactly one and the factory is called; otherwise a fresh waiter joins the queue tail and nothing else changes; the budget never grows; the invariant "queue non-empty ⇒ cache empty ∧ budget 0" is preserved |
| ResourcePool.Reclaim | Sources/RDBC/RDBC.swift:47-56 | with waiters queued, the head waiter is removed and resolved with exactly the reclaimed resource, and the cache is untouched; otherwise the resource is appended to the cache tail; the budget is unchanged; the invariant is preserved |
| ResourcePool.QueueLaw | Sources/RDBC/RDBC.swift:47-74 | over any run, old queue ++ waiters enqueued == waiters resolved ++ new queue, so waiters are served in arrival order |
| ResourcePool.CacheLaw | Sources/RDBC/RDBC.swift:47-64 | over any run, old cache ++ resources stored == resources served from the cache ++ new cache (the cache is FIFO) |
| ResourcePool.BudgetLaw | Sources/RDBC/RDBC.swift:66-69 | over any run, each factory call lowers the budget by exactly one and nothing restores it, whether the factory succeeds or fails |
| ResourcePool.RunPreservesValid | Sources/RDBC/RDBC.swift:47-77 | the pool invariant holds after any sequence of acquires and reclaims from a valid pool |
| ResourcePool.CapacityBound | Sources/RDBC/RDBC.swift:35-69 | a pool built with budget N calls its factory at most N times over any run |
| ResourcePool.FifoFairness | Sources/RDBC/RDBC.swift:49-72 | from a fresh pool, the waiters resolved so far are the oldest enqueued ones in arrival order, and the rest are still queued |
| ResourcePool.CacheReuse | Sources/RDBC/RDBC.swift:47-63 | with nobody waiting and nothing idle, a reclaimed resource is what the next acquire returns, with no factory call |
| ResourcePool.ReserveAsWritten | Sources/RDBC/RDBC.swift:43-44 | the constructor's capacity reservation as written: it traps exactly when 2·limit exceeds UInt.max, and otherwise reserves min(limit, 1024) and min(2·limit, 1024) |
| ResourcePool.DefaultLimitTraps | Sources/RDBC/RDBC.swift:35-44 | the default budget UInt.max makes the as-written reservation trap |
| ResourcePool.LargeLimitTraps | Sources/RDBC/RDBC.swift:44-44 | every budget above UInt.max / 2 makes the as-written reservation trap |
| ResourcePool.Reserve | Sources/RDBC/RDBC.swift:43-44 | corrected reservation: min(limit, 1024) and min(2·limit, 1024) for every UInt budget, both at most 1024 |
| ResourcePool.ReserveAgrees | Sources/RDBC/RDBC.swift:43-44 | the corrected reservation equals the as-written one wherever that does not trap, and the as-written one traps exactly above UInt.max / 2 |
| ConnectionPool.Connection | Sources/RDBC/RDBC.swift:146-151 | a non-empty cache always leases its head and removes it, leaving budget and queue unchanged and counting no factory call; otherwise the factory's connection (one unit of budget spent, one factory call counted, queue and cache unchanged), or the factory's failure (the budget stays spent), or a waiter queued exactly when nothing is idle and the budget is 0, with no factory call counted |
| ConnectionPool.Complete | Sources/RDBC/RDBC.swift:138-142 | the query's outcome is returned and the same connection is reclaimed whatever that outcome; it resolves the head waiter or joins the cache, so exactly one more connection is available |
| ConnectionPool.Execute | Sources/RDBC/RDBC.swift:137-143 | execute suspends exactly when nothing is idle and the budget is spent; a cached connection answers the query and goes back to the cache tail; a created connection answers and becomes idle; a factory failure is returned and the budget stays spent; one factory call is counted exactly when the cache was empty and budget remained |
| ConnectionPool.ExecuteReturnsLease | Sources/RDBC/RDBC.swift:137-150 | a completed execute leaves the cache holding the same connections as before, plus the one it created |
| ConnectionPool.ReleaseOnFailure | Sources/RDBC/RDBC.swift:139-141 | with the budget spent, an execute whose query fails still returns its connection, so the next acquire is served from the cache |
| ConnectionPool.SequentialReuse | Sources/RDBC/RDBC.swift:137-150 | sequential executes on a pool holding one idle connection all run on it, failing or not, and leave the pool unchanged |
| ConnectionPool.SequentialCreatesOne | Sources/RDBC/RDBC.swift:132-150 | a fresh pool serving sequential executes creates exactly one connection and runs every query on it |
| Rdbc.Register | Sources/RDBC/RDBC.swift:164-166 | registering adds the driver under its scheme, overwriting any earlier one, and leaves other schemes alone |
| Rdbc.ResolveDriver | Sources/RDBC/RDBC.swift:184-198 | `invalid(url)` exactly when the string does not parse; else `noProtocol` exactly when there is no scheme; else `unknown(scheme)` exactly when no driver is registered; success exactly when all three checks pass, and then the driver registered for the scheme |
| Rdbc.LatestRegistrationWins | Sources/RDBC/RDBC.swift:164-166 | after a sequence of registrations, a scheme maps to the last driver registered for it, or keeps its old entry if none was |
| Rdbc.ResolveAfterRegistrations | Sources/RDBC/RDBC.swift:184-198 | resolution after registrations returns the most recently registered driver for the URL's scheme, or `unknown` if there is none |
| Rdbc.ParseUInt | Sources/RDBC/RDBC.swift:175-175 | text that is not digits, optionally after one `+` or `-`, does not parse; digit text, with or without a leading `+`, parses to its decimal value exactly when that fits in 64 bits and fails otherwise; after a `-` only digits of value 0 parse, to 0 |
| Rdbc.RequestedSize | Sources/RDBC/RDBC.swift:175-175 | no `_k_poolSize` key requests nothing; a value that `UInt(_:)` rejects, such as non-digit text, requests nothing; a key holding digits requests their decimal value when it fits in a `UInt`, and nothing otherwise |
| Rdbc.ParseDecimal | Sources/RDBC/RDBC.swift:175-175 | every UInt parses back from its decimal text |
| Rdbc.PoolSize | Sources/RDBC/RDBC.swift:175-177 | with a parsable `_k_poolSize` the size is the greater of the driver's limit and the requested size; otherwise it is the driver's recommended size |
| Rdbc.OverrideAboveLimit | Sources/RDBC/RDBC.swift:175-177 | a requested size above the driver's limit is used exactly |
| Rdbc.MalformedOverrideIgnored | Sources/RDBC/RDBC.swift:175-177 | a `_k_poolSize` that is not digit text, optionally signed, falls back to the driver's recommended size |
| Rdbc.OverrideBelowLimit | Sources/RDBC/RDBC.swift:175-177 | a requested size at or below the driver's limit yields the limit |
| Rdbc.OpenPool | Sources/RDBC/RDBC.swift:172-182 | fails exactly as driver resolution fails; otherwise builds a fresh pool with budget equal to the pool-size rule, and a factory that connects the resolved driver with the same URL and parameters; its capacity reservation is the as-written one wherever that does not trap (the corrected one otherwise, see Findings) |
| Rdbc.Connect | Sources/RDBC/RDBC.swift:200-206 | fails exactly as driver resolution fails; otherwise asks the resolved driver to connect with the same URL and parameters |
| Rdbc.HugeOverrideTrapsAsWritten | Sources/RDBC/RDBC.swift:175-179 | a `_k_poolSize` above UInt.max / 2 passes the pool-size rule and then makes the as-written pool construction trap |
| ResultSets.Accumulate | Sources/RDBC/RDBC.swift:101-111 | a drained result extends the rows already held, with fewer new rows than replies consumed |
| ResultSets.Rows | Sources/RDBC/RDBC.swift:101-115 | whatever `rows()` returns, the replies show it: drained rows are followed by end-of-data; a thrown error is the first reply that is not a row; an unfinished drain saw only rows |
| ResultSets.RowsOfTerminated | Sources/RDBC/RDBC.swift:101-115 | `rows()` returns exactly the rows yielded before the first end-of-data, in order, whatever follows |
| ResultSets.RowsOfFailure | Sources/RDBC/RDBC.swift:101-111 | a `next()` that throws after any number of rows makes `rows()` fail with that error, whatever follows |
| ResultSets.RowsOfPartial | Sources/RDBC/RDBC.swift:101-111 | replies that are all rows leave `rows()` unfinished |
| ResultSets.Zip | Sources/RDBC/RDBC.swift:121-121 | column names and values are paired by position, up to the shorter length |
| ResultSets.ToDictionary | Sources/RDBC/RDBC.swift:121-121 | the dictionary's keys are exactly the pairs' names |
| ResultSets.ToDictionaryValue | Sources/RDBC/RDBC.swift:121-121 | a pair whose name no later pair repeats gives that name's value |
| ResultSets.RowDictionaryByPosition | Sources/RDBC/RDBC.swift:117-125 | with distinct column names and one value per column, a row's dictionary maps each column name to the value at its position and has no other keys |
| ResultSets.Dictionaries | Sources/RDBC/RDBC.swift:117-125 | a failing `columns` fails `dictionaries()` with its error; otherwise it drains and fails exactly as `rows()` does, with one dictionary per drained row, in order |
| MockSyncDriver.FromTable | Tests/RDBCTests/MockSyncDriver.swift:28-35 | a new cursor holds the table's columns and rows and sits before the first row |
| MockSyncDriver.Default | Tests/RDBCTests/MockSyncDriver.swift:20-43 | the default cursor sits before the first row of the id/firstname/lastname table holding 1/John/Lennon and 1/Paul/McCartney |
| MockSyncDriver.WithCount | Tests/RDBCTests/MockSyncDriver.swift:37-39 | the count initialiser ignores its argument and yields the one-column `count` table with the single row [1] |
| MockSyncDriver.Columns | Tests/RDBCTests/MockSyncDriver.swift:49-51 | `columns()` never fails and returns the names the cursor holds |
| MockSyncDriver.ColumnsStable | Tests/RDBCTests/MockSyncDriver.swift:49-59 | neither `next()` nor `reset()` changes what `columns()` returns |
| MockSyncDriver.ColumnCount | Tests/RDBCTests/MockSyncDriver.swift:45-51 | `columnCount()` equals the length of `columns()` |
| MockSyncDriver.Reset | Tests/RDBCTests/MockSyncDriver.swift:53-55 | `reset()` returns the cursor to its initial state |
| MockSyncDriver.Next | Tests/RDBCTests/MockSyncDriver.swift:57-60 | `next()` advances the position by one and returns the row there while one exists, and `nil` otherwise |
| MockSyncDriver.RepliesFrom | Tests/RDBCTests/MockSyncDriver.swift:57-60 | the k-th of successive `next()` calls returns the row k places past the current one while it exists, and `nil` after that |
| MockSyncDriver.FreshCursor | Tests/RDBCTests/MockSyncDriver.swift:28-60 | a fresh cursor returns row 0, row 1, … and then `nil` on every later call |
| MockSyncDriver.ResetRestarts | Tests/RDBCTests/MockSyncDriver.swift:53-59 | after `reset()` the next `next()` yields the first row again |
| MockSyncDriver.DrainRows | Sources/RDBC/RDBC.swift:101-115 | calling `next()` until `nil` collects exactly the cursor's remaining rows, which is what the accumulation rule makes of those replies |
| MockSyncDriver.DefaultRows | Tests/RDBCTests/MockSyncDriver.swift:20-26 | draining the default cursor through the accumulation rule yields exactly its two table rows, in order |
| MockSyncDriver.Execute | Tests/RDBCTests/MockSyncDriver.swift:65-67 | a query with prefix "SELECT" gets the 3-column, 2-row default table; any other query gets the `count` table with row [1]; a result set is always returned |
| MockSyncDriver.Connect | Tests/RDBCTests/MockSyncDriver.swift:77-79 | the mock driver connects for every URL and parameter set, never raising a driver error |
| PoolTests.BasicPooling | Sources/RDBC/RDBC.swift:47-74 | with limit 1, the first acquire creates, the second waits, and reclaiming the resource resolves that waiter with it |
| PoolTests.ThreeWaiters | Sources/RDBC/RDBC.swift:47-74 | three waiters queued on an exhausted pool are resolved by three reclaims in arrival order |
| PoolTests.MemoryPool | Tests/RDBCTests/MockSyncDriver.swift:71-75 | the pool for "ms://memory" uses `MS_DRIVER` (scheme "ms", limit 1, recommended size 1, as `MSDriver` declares) and, with no override, has size 1 |
| PoolTests.UrlDispatch | Sources/RDBC/RDBC.swift:184-198 | "unknown://x" fails with `unknown("unknown")` and "not a url" fails with `invalid` |
| PoolTests.SelectThroughPool | Tests/RDBCTests/PoolTests.swift:36-40 | a SELECT through the "ms://memory" pool creates its only connection, answers with the default table, and leaves the connection idle |
| PoolTests.DefaultDictionaries | Sources/RDBC/RDBC.swift:117-125 | `dictionaries()` on the default cursor yields the two maps id/firstname/lastname → 1/John/Lennon and 1/Paul/McCartney |

## Left out

- Futures, promises and the `ExecutionContext` are not modelled; the model assumes a serial context, as `ConnectionPool` supplies, and says nothing about a `ResourcePool` built on a concurrent one. Each submitted block is one atomic transition. A promise is a waiter id, and its resolution is the `Resolved` hand-off of a reclaim.
- The interleaving of other operations between the acquire and the release of one `execute` is not modelled as a whole. `Connection` and `Complete` are the two halves, and `Execute` is their back-to-back composition.
- Foundation's `URL(string:)` is not part of this model. It is the `parse` parameter, reduced to the scheme it reports. The scenarios state what it returns as hypotheses.
- `register(driver: SyncDriver)` and the `AsyncDriver` adapter are left out. The adapter's source is not part of this model.
- `RDBC.init` and its context factory are left out: they are concurrency plumbing. The URL-less `connect(url:)` and `pool(url:)` overloads are left out too: they only forward an empty parameter map, and the model passes `map[]` directly.
- The effect of `reserveCapacity` on allocation is left out. Only the computation of the reserved sizes is modelled, because it can trap.
- Driver errors, factory failures and cursor errors are `DriverError`, which keeps only a description. `Any?` cell values are the `Value` datatype.
- ResourcePool.Init: it models construction without the capacity-reservation trap, so it gives a valid pool for every `UInt` budget, including the default `UInt.max`. As written the constructor traps at `RDBC.swift:44` for budgets above `UInt.max / 2`; that trap is modelled by `ReserveAsWritten` and exhibited by `DefaultLimitTraps` and `LargeLimitTraps`. `Init` is reached from `Rdbc.OpenPool` at such budgets too.
- Rdbc.OpenPool: it builds the pool with the corrected reservation `Reserve`. As written, `pool(url:params:)` traps at `RDBC.swift:44` when the pool size exceeds `UInt.max / 2`; that trap is modelled by `ReserveAsWritten` and exhibited by `Rdbc.HugeOverrideTrapsAsWritten`, not by `OpenPool`.
- ResultSets.ToDictionary: Boilerplate's `dictionary` is not part of this model. Later pairs are assumed to replace earlier ones with the same key. The contracts speak only of distinct names.
- ResultSets.Zip: Boilerplate's `zipWith` is assumed to stop at the shorter sequence.
- Rdbc.ParseUInt: Swift's integer parser is not part of this model. The model assumes an optional sign, at least one decimal digit, and a value that fits in 64 bits. It assumes that after a `-` only zero parses.
- MockSyncDriver.Next: the position is an unbounded integer. The Swift `Int` would trap after 2^63 calls.
- MockSyncDriver.Execute: `hasPrefix` is compared character by character rather than by Swift grapheme clusters.
- XCTest scaffolding and the force-unwrapping helpers in `PoolTests.swift` are left out.

## Findings

| source | as written | input that shows it | evidently intended | confidence | as-written member | corrected member |
|---|---|---|---|---|---|---|
| Sources/RDBC/RDBC.swift:44 | `limit * 2` is computed in `UInt` before the minimum with 1024 is taken, and Swift traps on overflow | `limit = UInt.max`, which is the constructor's default. Any `limit > UInt.max / 2` does the same, e.g. `_k_poolSize = "18446744073709551615"` through `pool(url:params:)` | reserve min(2·limit, 1024) for every budget | high; not executed | ResourcePool.ReserveAsWritten (counterexamples ResourcePool.DefaultLimitTraps, Rdbc.HugeOverrideTrapsAsWritten) | ResourcePool.Reserve (proved by ResourcePool.ReserveAgrees; used by Rdbc.OpenPool) |

=== FILE: connection_pool.dfy ===
/** `ConnectionPool` of `RDBC.swift`: a connection-shaped façade over a
    resource pool of connections. A connection's query is a function from
    the leased connection to its outcome; the factory's outcome is a
    parameter consulted only when the pool decides to call the factory. */
module ConnectionPool {
  import opened Results
  import opened ResourcePool

  /** What `connection()` yields: a leased connection (paired, in the
      source, with a release closure that reclaims it), the factory's
      failure, or a promise still waiting in the queue. */
  datatype Lease<C, E> = Leased(conn: C) | Failed(error: E) | Waiting(waiter: WaiterId)

  /** What `execute` yields once its acquire step has run: the query's
      outcome, or a promise that a later reclaim resolves (see `Complete`). */
  datatype Completion<A, E> = Completed(result: Result<A, E>) | Suspended(waiter: WaiterId)

  /** `connection()`: one acquire on the underlying pool. */
  function Connection<C, E>(p: Pool<C>, connect: Result<C, E>): (r: (Pool<C>, Lease<C, E>))
    ensures r.1.Waiting? <==> |p.cache| == 0 && p.limit == 0
    ensures |p.cache| > 0 ==>
              && r.1 == Leased(p.cache[0])
              && r.0.cache == p.cache[1..] && r.0.limit == p.limit && r.0.queue == p.queue
              && r.0.created == p.created
    ensures |p.cache| == 0 && p.limit > 0 ==>
              && r.0.limit + 1 == p.limit && r.0.cache == p.cache
              && r.0.queue == p.queue && r.0.created == p.created + 1
              && (if connect.Ok? then r.1 == Leased(connect.value) else r.1 == Failed(connect.error))
    ensures r.1.Waiting? ==> r.0.queue == p.queue + [r.1.waiter] && r.0.limit == 0 && r.0.created == p.created
    ensures Valid(p) ==> Valid(r.0)
  {
    var (p', g) := Acquire(p);
    match g
    case Cached(c) => (p', Leased(c))
    case Create => (p', if connect.Ok? then Leased(connect.value) else Failed(connect.error))
    case Enqueued(w) => (p', Waiting(w))
  }

  /** The tail of `execute` for a lease on `conn`: run the query, then
      release `conn` through the pool's reclaim whatever the outcome. The
      release either resolves the oldest waiter with `conn` or caches it,
      so the pool has exactly one more connection available afterwards. */
  function Complete<C, A, E>(p: Pool<C>, conn: C, query: C -> Result<A, E>): (r: (Pool<C>, Result<A, E>, Handoff<C>))
    ensures r.1 == query(conn)
    ensures r.2.resource == conn
    ensures r.2.Resolved? ==> p.queue == [r.2.waiter] + r.0.queue && r.0.cache == p.cache
    ensures r.2.Stored? ==> r.0.cache == p.cache + [conn] && r.0.queue == p.queue
    ensures |r.0.cache| + |p.queue| == |p.cache| + |r.0.queue| + 1
    ensures r.0.limit == p.limit
    ensures Valid(p) ==> Valid(r.0)
  {
    var outcome := query(conn);
    var (p', h) := Reclaim(p, conn);
    (p', outcome, h)
  }

  /** `execute(query:parameters:named:)`: acquire, query, release. */
  function Execute<C, A, E>(p: Pool<C>, connect: Result<C, E>, query: C -> Result<A, E>): (r: (Pool<C>, Completion<A, E>))
    ensures r.1.Suspended? <==> |p.cache| == 0 && p.limit == 0
    ensures r.1.Suspended? ==> r.0.queue == p.queue + [r.1.waiter] && r.0.cache == p.cache && r.0.created == p.created
    ensures Valid(p) && |p.cache| > 0 ==>
              && r.1 == Completed(query(p.cache[0]))
              && r.0.cache == p.cache[1..] + [p.cache[0]]
              && r.0.limit == p.limit && r.0.queue == p.queue && r.0.created == p.created
    ensures Valid(p) && |p.cache| == 0 && p.limit > 0 ==>
              && r.0.limit + 1 == p.limit && r.0.queue == p.queue && r.0.created == p.created + 1
              && (if connect.Ok? then
                    r.1 == Completed(query(connect.value)) && r.0.cache == [connect.value]
                  else
                    r.1 == Completed(Err(connect.error)) && r.0.cache == [])
    ensures Valid(p) ==> Valid(r.0)
  {
    var (p1, lease) := Connection(p, connect);
    match lease
    case Leased(c) =>
      var (p2, outcome, _) := Complete(p1, c, query);
      (p2, Completed(outcome))
    case Failed(e) => (p1, Completed(Err(e)))
    case Waiting(w) => (p1, Suspended(w))
  }

  /** Under the pool invariant, a completed `execute` leaves the idle cache
      holding the same connections as before, plus the one the factory
      created for it: the connection it leased has been given back. */
  lemma ExecuteReturnsLease<C, A, E>(p: Pool<C>, connect: Result<C, E>, query: C -> Result<A, E>)
    requires Valid(p)
    ensures var (p', c) := Execute(p, connect, query);
      c.Completed? ==>
        multiset(p'.cache) == multiset(p.cache) + (if |p.cache| == 0 && connect.Ok? then multiset{connect.value} else multiset{})
  {
    var (p', c) := Execute(p, connect, query);
    if |p.cache| > 0 {
      assert p.cache == [p.cache[0]] + p.cache[1..];
      assert multiset(p.cache) == multiset{p.cache[0]} + multiset(p.cache[1..]);
    }
  }

  /** Release on failure: with the budget spent and nobody waiting, an
      `execute` whose query fails still returns its connection, so the next
      acquire is served from the cache without calling the factory. */
  lemma ReleaseOnFailure<C, A, E>(p: Pool<C>, connect: Result<C, E>, query: C -> Result<A, E>)
    requires Valid(p) && p.limit == 0 && |p.cache| > 0
    requires query(p.cache[0]).Err?
    ensures Execute(p, connect, query).1 == Completed(query(p.cache[0]))
    ensures Acquire(Execute(p, connect, query).0).1.Cached?
  {
  }

  /** `execute` called once per query, each completing before the next. */
  function ExecuteAll<C, A, E>(p: Pool<C>, connect: Result<C, E>, queries: seq<C -> Result<A, E>>): (r: (Pool<C>, seq<Completion<A, E>>))
    ensures |r.1| == |queries|
    decreases |queries|
  {
    if |queries| == 0 then (p, [])
    else
      var (p1, c) := Execute(p, connect, queries[0]);
      var (p2, cs) := ExecuteAll(p1, connect, queries[1..]);
      (p2, [c] + cs)
  }

  /** Sequential reuse: once a pool holds one idle connection and nobody
      waits, any number of sequential executes, failing or not, all run on
      that connection and leave the pool exactly as they found it. */
  lemma {:induction false} SequentialReuse<C, A, E>(p: Pool<C>, conn: C, connect: Result<C, E>, queries: seq<C -> Result<A, E>>)
    requires Valid(p) && p.cache == [conn]
    ensures ExecuteAll(p, connect, queries).0 == p
    ensures forall i :: 0 <= i < |queries| ==> ExecuteAll(p, connect, queries).1[i] == Completed(queries[i](conn))
    decreases |queries|
  {
    if |queries| > 0 {
      var (p1, c) := Execute(p, connect, queries[0]);
      assert p1 == p;
      SequentialReuse(p, conn, connect, queries[1..]);
      var cs := ExecuteAll(p, connect, queries[1..]).1;
      assert ExecuteAll(p, connect, queries).1 == [c] + cs;
      forall i | 0 <= i < |queries|
        ensures ExecuteAll(p, connect, queries).1[i] == Completed(queries[i](conn))
      {
        if i > 0 {
          assert ([c] + cs)[i] == cs[i - 1];
          assert queries[1..][i - 1] == queries[i];
        }
      }
    }
  }

  /** A pool of size `n > 0` serving sequential executes creates exactly one
      connection, runs every query on it, and keeps it idle afterwards. */
  lemma SequentialCreatesOne<C, A, E>(n: nat, conn: C, queries: seq<C -> Result<A, E>>)
    requires 0 < n <= UINT_MAX && |queries| > 0
    ensures var (p', cs) := ExecuteAll(Init<C>(n), Ok(conn), queries);
      && p'.cache == [conn] && p'.limit + 1 == n
      && (forall i :: 0 <= i < |queries| ==> cs[i] == Completed(queries[i](conn)))
  {
    var p0 := Init<C>(n);
    var (p1, c) := Execute(p0, Ok(conn), queries[0]);
    assert p1.cache == [conn];
    SequentialReuse(p1, conn, Ok(conn), queries[1..]);
    var cs := ExecuteAll(p1, Ok(conn), queries[1..]).1;
    assert ExecuteAll(p0, Ok(conn), queries).1 == [c] + cs;
    forall i | 0 <= i < |queries|
      ensures ExecuteAll(p0, Ok(conn), queries).1[i] == Completed(queries[i](conn))
    {
      if i > 0 {
        assert ([c] + cs)[i] == cs[i - 1];
        assert queries[1..][i - 1] == queries[i];
      }
    }
  }
}

=== FILE: mock_sync_driver.dfy ===
/** The in-memory test driver of `MockSyncDriver.swift`: a cursor over a
    fixed table, a connection that picks the table from the query text, and
    a driver registered under the scheme "ms". */
module MockSyncDriver {
  import opened Results
  import opened ResultSets
  import Rdbc

  /** The cell values the mock produces (`Any?` in the source). */
  datatype Value = Int(i: int) | Text(s: string) | Nil

  type Row = seq<Value>

  datatype Table = Table(columns: seq<string>, rows: seq<Row>)

  /** `MSResultSet.table`: columns id, firstname, lastname; two rows. */
  const DEFAULT_TABLE: Table := Table(
    ["id", "firstname", "lastname"],
    [[Int(1), Text("John"), Text("Lennon")],
     [Int(1), Text("Paul"), Text("McCartney")]])

  /** The table of `MSResultSet(count:)`: one `count` column, one row. */
  const COUNT_TABLE: Table := Table(["count"], [[Int(1)]])

  /** The cursor: `pos` is the index of the row last returned, starting at
      -1 before the first `next()`. */
  datatype MSResultSet = MSResultSet(pos: int, cols: seq<string>, data: seq<Row>)

  /** `init(table:)`. */
  function FromTable(t: Table): (rs: MSResultSet)
    ensures rs.pos == -1 && rs.cols == t.columns && rs.data == t.rows
  {
    MSResultSet(-1, t.columns, t.rows)
  }

  /** `init()`: a cursor over the default id/firstname/lastname table,
      before its first row. */
  function Default(): (rs: MSResultSet)
    ensures rs.pos == -1 && rs.cols == ["id", "firstname", "lastname"]
    ensures rs.data == [[Int(1), Text("John"), Text("Lennon")], [Int(1), Text("Paul"), Text("McCartney")]]
  {
    FromTable(DEFAULT_TABLE)
  }

  /** `init(count:)`: the argument plays no part in the result. */
  function WithCount(count: int): (rs: MSResultSet)
    ensures rs.pos == -1 && rs.cols == ["count"] && rs.data == [[Int(1)]]
  {
    FromTable(COUNT_TABLE)
  }

  /** `columns()`: the mock never throws here, and the names are the ones
      the cursor was built with. */
  function Columns(rs: MSResultSet): (r: Result<seq<string>, DriverError>)
    ensures r.Ok? && r.value == rs.cols
  {
    Ok(rs.cols)
  }

  /** `columnCount()`: the number of names `columns()` returns. */
  function ColumnCount(rs: MSResultSet): (n: nat)
    ensures n == |Columns(rs).value|
  {
    |rs.cols|
  }

  /** `reset()`: back to the cursor's initial state. */
  function Reset(rs: MSResultSet): (r: MSResultSet)
    ensures r == FromTable(Table(rs.cols, rs.data))
  {
    rs.(pos := -1)
  }

  /** `next()`: advance, then return the row at the new position if there
      is one. The position keeps advancing past the end. */
  function Next(rs: MSResultSet): (r: (MSResultSet, Option<Row>))
    requires rs.pos >= -1
    ensures r.0.pos == rs.pos + 1 && r.0.cols == rs.cols && r.0.data == rs.data
    ensures r.1.Some? <==> rs.pos + 1 < |rs.data|
    ensures r.1.Some? ==> r.1.value == rs.data[rs.pos + 1]
  {
    var pos := rs.pos + 1;
    (rs.(pos := pos), if pos < |rs.data| then Some(rs.data[pos]) else None)
  }

  /** The replies of `n` successive `next()` calls; the mock never throws. */
  function Replies(rs: MSResultSet, n: nat): (t: seq<Reply<Row, DriverError>>)
    requires rs.pos >= -1
    ensures |t| == n
    decreases n
  {
    if n == 0 then [] else [Ok(Next(rs).1)] + Replies(Next(rs).0, n - 1)
  }

  /** The `k`-th of successive `next()` calls returns the row `k` places
      after the current one while there is one, and `nil` after that. */
  lemma {:induction false} RepliesFrom(rs: MSResultSet, n: nat, k: nat)
    requires rs.pos >= -1 && k < n
    ensures Replies(rs, n)[k] == Ok(if rs.pos + 1 + k < |rs.data| then Some(rs.data[rs.pos + 1 + k]) else None)
    decreases n
  {
    if k > 0 {
      RepliesFrom(Next(rs).0, n - 1, k - 1);
    }
  }

  /** A fresh cursor returns row 0, row 1, ... and then `nil` forever. */
  lemma FreshCursor(t: Table, n: nat, k: nat)
    requires k < n
    ensures Replies(FromTable(t), n)[k] == Ok(if k < |t.rows| then Some(t.rows[k]) else None)
  {
    RepliesFrom(FromTable(t), n, k);
  }

  /** Neither `next()` nor `reset()` changes the column names. */
  lemma ColumnsStable(rs: MSResultSet)
    requires rs.pos >= -1
    ensures Columns(Next(rs).0) == Columns(rs) && Columns(Reset(rs)) == Columns(rs)
  {
  }

  /** After `reset()` the next `next()` yields the first row again. */
  lemma ResetRestarts(rs: MSResultSet)
    requires |rs.data| > 0
    ensures Next(Reset(rs)).1 == Some(rs.data[0])
  {
  }

  /** The rows a cursor has not yet returned. */
  function Remaining(rs: MSResultSet): seq<Row>
    requires rs.pos >= -1
  {
    if rs.pos + 1 <= |rs.data| then rs.data[rs.pos + 1..] else []
  }

  /** `rows()` on a mock cursor: call `next()` until it returns `nil`. The
      rows collected are the cursor's remaining rows, and they are what the
      accumulation rule makes of the replies received. */
  method DrainRows(rs: MSResultSet) returns (rows: seq<Row>, rs': MSResultSet)
    requires rs.pos >= -1
    ensures rows == Remaining(rs)
    ensures Rows(Replies(rs, |rows| + 1)) == Drained(rows)
    ensures rs'.pos >= |rs.data| && rs'.data == rs.data
  {
    rows := [];
    var cur := rs;
    var step := Next(cur);
    while step.1.Some?
      invariant cur.cols == rs.cols && cur.data == rs.data
      invariant cur.pos == rs.pos + |rows|
      invariant |rows| > 0 ==> rs.pos + 1 + |rows| <= |rs.data| && rows == rs.data[rs.pos + 1..rs.pos + 1 + |rows|]
      invariant step == Next(cur)
      decreases |rs.data| - cur.pos
    {
      rows := rows + [step.1.value];
      cur := step.0;
      step := Next(cur);
    }
    rs' := step.0;
    var replies := Replies(rs, |rows| + 1);
    forall k | 0 <= k < |rows| + 1
      ensures replies[k] == Terminated<Row, DriverError>(rows)[k]
    {
      RepliesFrom(rs, |rows| + 1, k);
    }
    assert replies == Terminated<Row, DriverError>(rows) + [];
    RowsOfTerminated<Row, DriverError>(rows, []);
  }

  /** Draining the default cursor yields exactly its two table rows, in
      order. */
  lemma DefaultRows(n: nat)
    requires n > 2
    ensures Rows(Replies(Default(), n)) == Drained(DEFAULT_TABLE.rows)
  {
    var rows := DEFAULT_TABLE.rows;
    var replies := Replies(Default(), n);
    forall k | 0 <= k < 3
      ensures replies[k] == Terminated<Row, DriverError>(rows)[k]
    {
      FreshCursor(DEFAULT_TABLE, n, k);
    }
    assert replies == Terminated<Row, DriverError>(rows) + replies[3..];
    RowsOfTerminated(rows, replies[3..]);
  }

  /** `MSConnection`: it has no state. */
  datatype MSConnection = MSConnection

  function HasPrefix(s: string, prefix: string): bool {
    |prefix| <= |s| && s[..|prefix|] == prefix
  }

  /** `MSConnection.execute`: a query starting with "SELECT" gets the
      default table, anything else the one-row count table; parameters are
      ignored and a result set is always returned. */
  function Execute(conn: MSConnection, query: string, parameters: seq<Value>, named: map<string, Value>): (r: Option<MSResultSet>)
    ensures r.Some? && r.value.pos == -1
    ensures HasPrefix(query, "SELECT") ==> r.value.cols == DEFAULT_TABLE.columns && r.value.data == DEFAULT_TABLE.rows
    ensures !HasPrefix(query, "SELECT") ==> r.value.cols == ["count"] && r.value.data == [[Int(1)]]
  {
    if HasPrefix(query, "SELECT") then Some(Default()) else Some(WithCount(1))
  }

  /** `MSDriver`: scheme "ms", pool limit 1, recommended size 1. */
  const MS_DRIVER: Rdbc.Driver := Rdbc.Driver("ms", 1, 1)

  /** `MSDriver.connect`: every URL and parameter set gets a connection;
      the error type is that of any driver's `connect`. */
  function Connect(url: string, params: map<string, string>): (r: Result<MSConnection, DriverError>)
    ensures r.Ok?
  {
    Ok(MSConnection)
  }
}

=== FILE: pool_tests.dfy ===
/** End-to-end scenarios: the pool fixture of `PoolTests.swift` (an "ms"
    driver registered, a pool opened for "ms://memory"), and pooling,
    dispatch and accumulation run through it. */
module PoolTests {
  import opened Results
  import opened ResourcePool
  import opened ResultSets
  import ConnectionPool
  import Rdbc
  import MockSyncDriver

  /** The test fixture's registry. */
  function Fixture(): Rdbc.Registry {
    Rdbc.Register(map[], MockSyncDriver.MS_DRIVER)
  }

  /** Limit 1: the first acquire calls the factory, the second waits, and
      reclaiming the first resource resolves the waiter with it. */
  lemma BasicPooling<R>(a: R)
    ensures var p0 := Init<R>(1);
      var (p1, g1) := Acquire(p0);
      var (p2, g2) := Acquire(p1);
      var (p3, h) := Reclaim(p2, a);
      && g1 == Create && g2 == Enqueued(0) && h == Resolved(0, a)
      && p3.cache == [] && p3.queue == [] && p3.created == 1
  {
  }

  /** Three waiters queued on an exhausted pool are resolved by three
      reclaims in arrival order. */
  lemma ThreeWaiters<R>(a: R, b: R, c: R)
    ensures var p0 := Init<R>(0);
      var (p1, g1) := Acquire(p0);
      var (p2, g2) := Acquire(p1);
      var (p3, g3) := Acquire(p2);
      var (p4, h1) := Reclaim(p3, a);
      var (p5, h2) := Reclaim(p4, b);
      var (p6, h3) := Reclaim(p5, c);
      && [g1, g2, g3] == [Enqueued(0), Enqueued(1), Enqueued(2)]
      && [h1, h2, h3] == [Resolved(0, a), Resolved(1, b), Resolved(2, c)]
      && p6.cache == [] && p6.queue == [] && p6.created == 0
  {
  }

  /** The fixture's pool for "ms://memory" uses the "ms" driver and, with no
      size override, its recommended size 1. */
  lemma MemoryPool(parse: string -> Option<Rdbc.Url>)
    requires parse("ms://memory") == Some(Rdbc.Url(Some("ms")))
    ensures var r := Rdbc.OpenPool<MockSyncDriver.MSConnection>(Fixture(), parse, "ms://memory", map[]);
      && r.Ok? && r.value.size == 1 && r.value.state.limit == 1
      && r.value.factory == Rdbc.ConnectRequest(MockSyncDriver.MS_DRIVER, "ms://memory", map[])
  {
  }

  /** An unregistered scheme and an unparsable string are rejected with
      `unknown` and `invalid` respectively. */
  lemma UrlDispatch(parse: string -> Option<Rdbc.Url>)
    requires parse("unknown://x") == Some(Rdbc.Url(Some("unknown")))
    requires parse("not a url") == None
    ensures Rdbc.OpenPool<MockSyncDriver.MSConnection>(Fixture(), parse, "unknown://x", map[]) == Err(Rdbc.Unknown("unknown"))
    ensures Rdbc.OpenPool<MockSyncDriver.MSConnection>(Fixture(), parse, "not a url", map[]) == Err(Rdbc.Invalid("not a url"))
  {
  }

  /** A SELECT executed through the fixture's pool creates the pool's only
      connection, answers with the default table, and leaves that connection
      idle in the pool. */
  lemma SelectThroughPool(parse: string -> Option<Rdbc.Url>, query: string)
    requires parse("ms://memory") == Some(Rdbc.Url(Some("ms")))
    requires MockSyncDriver.HasPrefix(query, "SELECT")
    ensures var cfg := Rdbc.OpenPool<MockSyncDriver.MSConnection>(Fixture(), parse, "ms://memory", map[]).value;
      var run := (c: MockSyncDriver.MSConnection) => Ok(MockSyncDriver.Execute(c, query, [], map[]));
      var (p, done) := ConnectionPool.Execute<MockSyncDriver.MSConnection, Option<MockSyncDriver.MSResultSet>, DriverError>(
        cfg.state, MockSyncDriver.Connect("ms://memory", map[]), run);
      && done == ConnectionPool.Completed(Ok(Some(MockSyncDriver.Default())))
      && p.cache == [MockSyncDriver.MSConnection] && p.limit == 0 && p.created == 1
  {
  }

  /** `dictionaries()` on the default cursor: one id/firstname/lastname
      dictionary per row, in order. */
  lemma DefaultDictionaries()
    ensures Dictionaries(MockSyncDriver.Columns(MockSyncDriver.Default()), Replies3()) ==
      Drained([map["id" := MockSyncDriver.Int(1), "firstname" := MockSyncDriver.Text("John"), "lastname" := MockSyncDriver.Text("Lennon")],
            map["id" := MockSyncDriver.Int(1), "firstname" := MockSyncDriver.Text("Paul"), "lastname" := MockSyncDriver.Text("McCartney")]])
  {
    var cols := MockSyncDriver.DEFAULT_TABLE.columns;
    var rows := MockSyncDriver.DEFAULT_TABLE.rows;
    MockSyncDriver.DefaultRows(3);
    var expected := [
      map["id" := MockSyncDriver.Int(1), "firstname" := MockSyncDriver.Text("John"), "lastname" := MockSyncDriver.Text("Lennon")],
      map["id" := MockSyncDriver.Int(1), "firstname" := MockSyncDriver.Text("Paul"), "lastname" := MockSyncDriver.Text("McCartney")]];
    assert (set i | 0 <= i < |cols| :: cols[i]) == {"id", "firstname", "lastname"} by {
      assert cols[0] == "id" && cols[1] == "firstname" && cols[2] == "lastname";
    }
    forall k | 0 <= k < 2
      ensures RowDictionary(cols, rows[k]) == expected[k]
    {
      RowDictionaryByPosition(cols, rows[k]);
    }
    assert Rows(Replies3()) == Drained(rows);
    var d := Dictionaries(MockSyncDriver.Columns(MockSyncDriver.Default()), Replies3());
    assert |d.rows| == 2;
    assert d.rows[0] == expected[0] && d.rows[1] == expected[1];
    assert d.rows == expected;
  }

  function Replies3(): seq<Reply<MockSyncDriver.Row, DriverError>> {
    MockSyncDriver.Replies(MockSyncDriver.Default(), 3)
  }
}

=== FILE: rdbc.dfy ===
/** The `RDBC` driver registry of `RDBC.swift`: registration by URL scheme,
    driver resolution with its three ordered failures, the pool-size rule
    and pool construction. Foundation's `URL(string:)` is not part of this
    model: it is passed in as `parse`, reduced to the scheme it reports. */
module Rdbc {
  import opened Results
  import opened ResourcePool

  /** The reserved parameter key that overrides a pool's size. */
  const POOL_SIZE: string := "_k_poolSize"

  /** A driver's constants: its URL scheme and its two `UInt` pool sizes.
      Its `connect` is represented by `ConnectRequest` below. */
  datatype Driver = Driver(proto: string, poolSizeLimit: UInt, poolSizeRecommended: UInt)

  /** `RDBCFrameworkError`. */
  datatype FrameworkError = Invalid(url: string) | NoProtocol | Unknown(proto: string)

  /** The part of a parsed URL the registry looks at. */
  datatype Url = Url(scheme: Option<string>)

  /** The registry's `_drivers` dictionary, keyed by scheme. */
  type Registry = map<string, Driver>

  /** `register(driver:)`: insert, silently replacing any driver that was
      registered for the same scheme. */
  function Register(reg: Registry, d: Driver): (r: Registry)
    ensures r.Keys == reg.Keys + {d.proto}
    ensures r[d.proto] == d
    ensures forall s :: s in reg && s != d.proto ==> r[s] == reg[s]
  {
    reg[d.proto := d]
  }

  /** `driver(url:params:)`: the URL must parse, must carry a scheme, and a
      driver must be registered for that scheme, checked in that order. */
  function ResolveDriver(reg: Registry, parse: string -> Option<Url>, raw: string): (r: Result<Driver, FrameworkError>)
    ensures r == Err(Invalid(raw)) <==> parse(raw).None?
    ensures r == Err(NoProtocol) <==> parse(raw).Some? && parse(raw).value.scheme.None?
    ensures r.Err? && r.error.Unknown? <==>
              parse(raw).Some? && parse(raw).value.scheme.Some? && parse(raw).value.scheme.value !in reg
    ensures r.Err? && r.error.Unknown? ==> r.error.proto == parse(raw).value.scheme.value
    ensures r.Ok? <==>
              && parse(raw).Some? && parse(raw).value.scheme.Some?
              && parse(raw).value.scheme.value in reg
    ensures r.Ok? ==> r.value == reg[parse(raw).value.scheme.value]
  {
    match parse(raw)
    case None => Err(Invalid(raw))
    case Some(url) =>
      match url.scheme
      case None => Err(NoProtocol)
      case Some(proto) =>
        if proto in reg then Ok(reg[proto]) else Err(Unknown(proto))
  }

  /** The registry after registering `ds` in order. */
  function RegisterAll(reg: Registry, ds: seq<Driver>): Registry
    decreases |ds|
  {
    if |ds| == 0 then reg else Register(RegisterAll(reg, ds[..|ds| - 1]), ds[|ds| - 1])
  }

  /** Reference definition: the last driver in `ds` whose scheme is `proto`. */
  function LastFor(ds: seq<Driver>, proto: string): (r: Option<Driver>)
    ensures r.Some? ==> r.value in ds && r.value.proto == proto
    ensures r.None? ==> forall i :: 0 <= i < |ds| ==> ds[i].proto != proto
    decreases |ds|
  {
    if |ds| == 0 then None
    else if ds[|ds| - 1].proto == proto then Some(ds[|ds| - 1])
    else LastFor(ds[..|ds| - 1], proto)
  }

  /** After a sequence of registrations, a scheme maps to the most recently
      registered driver for it, and is otherwise left as it was. */
  lemma {:induction false} LatestRegistrationWins(reg: Registry, ds: seq<Driver>, proto: string)
    ensures proto in RegisterAll(reg, ds) <==> proto in reg || LastFor(ds, proto).Some?
    ensures LastFor(ds, proto).Some? ==> RegisterAll(reg, ds)[proto] == LastFor(ds, proto).value
    ensures LastFor(ds, proto).None? && proto in reg ==> RegisterAll(reg, ds)[proto] == reg[proto]
    decreases |ds|
  {
    if |ds| > 0 {
      LatestRegistrationWins(reg, ds[..|ds| - 1], proto);
    }
  }

  /** Driver resolution against drivers registered from an empty registry:
      the latest driver for the URL's scheme, or `Unknown` if there is none. */
  lemma ResolveAfterRegistrations(ds: seq<Driver>, parse: string -> Option<Url>, raw: string, proto: string)
    requires parse(raw) == Some(Url(Some(proto)))
    ensures var r := ResolveDriver(RegisterAll(map[], ds), parse, raw);
      && (LastFor(ds, proto).Some? ==> r == Ok(LastFor(ds, proto).value))
      && (LastFor(ds, proto).None? ==> r == Err(Unknown(proto)))
  {
    LatestRegistrationWins(map[], ds, proto);
  }

  // ---------------------------------------------------------------------
  // `UInt(String)`: decimal text to an unsigned 64-bit integer.

  predicate IsDigit(c: char) {
    '0' <= c <= '9'
  }

  predicate AllDigits(s: string) {
    forall i :: 0 <= i < |s| ==> IsDigit(s[i])
  }

  function DecimalValue(s: string): nat
    requires AllDigits(s)
    decreases |s|
  {
    if |s| == 0 then 0 else DecimalValue(s[..|s| - 1]) * 10 + (s[|s| - 1] as int - '0' as int)
  }

  /** The text shape `UInt(_:)` accepts: digits, optionally after one sign. */
  predicate SignedDigits(s: string) {
    || (|s| > 0 && AllDigits(s))
    || (|s| > 1 && (s[0] == '+' || s[0] == '-') && AllDigits(s[1..]))
  }

  /** Swift's `UInt(_:)` on a string: an optional `+` or `-` sign, then one
      or more decimal digits; the value must fit in `UInt`, and after `-`
      only zero fits. */
  function ParseUInt(s: string): (r: Option<UInt>)
    ensures !SignedDigits(s) ==> r.None?
    ensures |s| > 0 && AllDigits(s) ==>
              r == (if DecimalValue(s) <= UINT_MAX then Some(DecimalValue(s)) else None)
    ensures |s| > 1 && s[0] == '+' && AllDigits(s[1..]) ==>
              r == (if DecimalValue(s[1..]) <= UINT_MAX then Some(DecimalValue(s[1..])) else None)
    ensures |s| > 1 && s[0] == '-' && AllDigits(s[1..]) ==>
              r == (if DecimalValue(s[1..]) == 0 then Some(0) else None)
  {
    var negative := |s| > 0 && s[0] == '-';
    var digits := if |s| > 0 && (s[0] == '+' || s[0] == '-') then s[1..] else s;
    if |digits| == 0 || !AllDigits(digits) then None
    else
      var v := DecimalValue(digits);
      if negative then (if v == 0 then Some(0) else None)
      else if v <= UINT_MAX then Some(v)
      else None
  }

  /** Reference rendering: the shortest decimal text of `n`. */
  function Decimal(n: nat): (s: string)
    ensures |s| > 0 && AllDigits(s)
  {
    var d := ['0' + ((n % 10) as char)];
    if n < 10 then d else Decimal(n / 10) + d
  }

  lemma {:induction false} DecimalValueOfDecimal(n: nat)
    ensures DecimalValue(Decimal(n)) == n
  {
    var s := Decimal(n);
    if n >= 10 {
      DecimalValueOfDecimal(n / 10);
      assert s[..|s| - 1] == Decimal(n / 10);
    }
  }

  /** `UInt(_:)` reads back every `UInt` from its decimal text. */
  lemma ParseDecimal(n: UInt)
    ensures ParseUInt(Decimal(n)) == Some(n)
  {
    DecimalValueOfDecimal(n);
  }

  // ---------------------------------------------------------------------
  // Pool sizing and pool construction.

  /** The size requested through the reserved key, if it parses: absent
      key, no size; a key holding decimal digits, their value if it fits in
      a `UInt`. */
  function RequestedSize(params: map<string, string>): (r: Option<UInt>)
    ensures POOL_SIZE !in params ==> r.None?
    ensures POOL_SIZE in params ==> r == ParseUInt(params[POOL_SIZE])
  {
    if POOL_SIZE in params then ParseUInt(params[POOL_SIZE]) else None
  }

  /** The pool-size rule: a parsable override is raised to at least the
      driver's `poolSizeLimit` (the greater of the two is taken); without a
      parsable override the driver's recommended size is used. */
  function PoolSize(params: map<string, string>, d: Driver): (n: UInt)
    ensures RequestedSize(params).Some? ==>
              && n >= d.poolSizeLimit && n >= RequestedSize(params).value
              && (n == d.poolSizeLimit || n == RequestedSize(params).value)
    ensures RequestedSize(params).None? ==> n == d.poolSizeRecommended
  {
    match RequestedSize(params)
    case Some(size) => Max(d.poolSizeLimit, size)
    case None => d.poolSizeRecommended
  }

  /** An override above the driver's limit is honoured exactly: the limit
      acts as a floor, not a ceiling. */
  lemma OverrideAboveLimit(d: Driver, n: UInt)
    requires n > d.poolSizeLimit
    ensures PoolSize(map[POOL_SIZE := Decimal(n)], d) == n
  {
    ParseDecimal(n);
  }

  /** A size override `UInt(_:)` rejects is ignored: the driver's
      recommended size is used. */
  lemma MalformedOverrideIgnored(d: Driver, text: string)
    requires !SignedDigits(text)
    ensures PoolSize(map[POOL_SIZE := text], d) == d.poolSizeRecommended
  {
  }

  /** An override at or below the driver's limit yields the limit. */
  lemma OverrideBelowLimit(d: Driver, n: UInt)
    requires n <= d.poolSizeLimit
    ensures PoolSize(map[POOL_SIZE := Decimal(n)], d) == d.poolSizeLimit
  {
    ParseDecimal(n);
  }

  /** The factory a pool is built with: ask `driver` to connect with the
      pool's own URL and parameters. */
  datatype ConnectRequest = ConnectRequest(driver: Driver, url: string, params: map<string, string>)

  /** What `pool(url:params:)` builds: the factory, and a fresh resource
      pool sized by the pool-size rule together with its capacity hints. */
  datatype PoolConfig<C> = PoolConfig(factory: ConnectRequest, size: UInt, reserved: Reservation, state: Pool<C>)

  /** `pool(url:params:)`. */
  function OpenPool<C>(reg: Registry, parse: string -> Option<Url>, raw: string, params: map<string, string>): (r: Result<PoolConfig<C>, FrameworkError>)
    ensures r.Err? <==> ResolveDriver(reg, parse, raw).Err?
    ensures r.Err? ==> r.error == ResolveDriver(reg, parse, raw).error
    ensures r.Ok? ==>
              var d := ResolveDriver(reg, parse, raw).value;
              && r.value.factory == ConnectRequest(d, raw, params)
              && r.value.size == PoolSize(params, d)
              && r.value.state.limit == r.value.size
              && r.value.state.cache == [] && r.value.state.queue == [] && r.value.state.created == 0
              && r.value.reserved.cache <= RESERVE && r.value.reserved.queue <= RESERVE
              && (ReserveAsWritten(r.value.size).Some? ==> r.value.reserved == ReserveAsWritten(r.value.size).value)
  {
    match ResolveDriver(reg, parse, raw)
    case Err(e) => Err(e)
    case Ok(d) =>
      var size := PoolSize(params, d);
      Ok(PoolConfig(ConnectRequest(d, raw, params), size, Reserve(size), Init(size)))
  }

  /** `connect(url:params:)`: resolve the driver, then hand the URL and the
      parameters to its `connect`. */
  function Connect(reg: Registry, parse: string -> Option<Url>, raw: string, params: map<string, string>): (r: Result<ConnectRequest, FrameworkError>)
    ensures r.Err? <==> ResolveDriver(reg, parse, raw).Err?
    ensures r.Err? ==> r.error == ResolveDriver(reg, parse, raw).error
    ensures r.Ok? ==> r.value.driver == ResolveDriver(reg, parse, raw).value && r.value.url == raw && r.value.params == params
  {
    match ResolveDriver(reg, parse, raw)
    case Err(e) => Err(e)
    case Ok(d) => Ok(ConnectRequest(d, raw, params))
  }

  /** As written, a size override above `UInt.max / 2` is accepted by the
      pool-size rule and then makes the resource pool's constructor trap on
      `limit * 2`. */
  lemma HugeOverrideTrapsAsWritten(d: Driver, n: UInt)
    requires n > UINT_MAX / 2
    ensures PoolSize(map[POOL_SIZE := Decimal(n)], d) > UINT_MAX / 2
    ensures ReserveAsWritten(PoolSize(map[POOL_SIZE := Decimal(n)], d)).None?
  {
    ParseDecimal(n);
  }
}

=== FILE: resource_pool.dfy ===
/** The generic bounded pool of `RDBC.swift`. Every `acquire` (the pool
    iterator's `next`) and every `reclaim` runs as one block on the pool's
    execution context, which `ConnectionPool` creates serial
    (`RDBC.swift:133`); each is modelled as one atomic transition of an
    immutable state record, as it behaves on such a context. Promises become waiter ids. */
module ResourcePool {
  import opened Results

  /** Identity of a pending promise in the wait queue. */
  type WaiterId = nat

  /** `limit` is the remaining creation budget, `cache` the idle resources
      (appended at the tail, taken from the head), `queue` the pending
      promises in arrival order. `nextWaiter` supplies fresh promise ids and
      `created` counts factory invocations; neither exists in the source,
      they make freshness and the capacity bound expressible. */
  datatype Pool<R> = Pool(limit: nat, cache: seq<R>, queue: seq<WaiterId>, nextWaiter: nat, created: nat)

  /** What one acquire hands back: a cached resource, a factory call, or a
      promise parked at the tail of the queue. */
  datatype Grant<R> = Cached(resource: R) | Create | Enqueued(waiter: WaiterId)

  /** What one reclaim does with its resource: resolve the oldest promise
      with it, or store it at the tail of the cache. */
  datatype Handoff<R> = Resolved(waiter: WaiterId, resource: R) | Stored(resource: R)

  /** The pool's standing invariant: waiters exist only when nothing is idle
      and the budget is spent; waiter ids are issued in increasing order. */
  predicate Valid<R>(p: Pool<R>) {
    && (|p.queue| > 0 ==> |p.cache| == 0 && p.limit == 0)
    && (forall i, j :: 0 <= i < j < |p.queue| ==> p.queue[i] < p.queue[j])
    && (forall i :: 0 <= i < |p.queue| ==> p.queue[i] < p.nextWaiter)
  }

  /** A freshly constructed pool with creation budget `limit` (a Swift
      `UInt`). The construction-time capacity reservation is not part of
      this state: the constructor's own computation, which traps above
      `UInt.max / 2`, is `ReserveAsWritten` below, and `Reserve` is its
      corrected form. */
  function Init<R>(limit: nat): (p: Pool<R>)
    requires limit <= UINT_MAX
    ensures Valid(p)
    ensures p.limit == limit && p.created == 0
    ensures |p.cache| == 0 && |p.queue| == 0
  {
    Pool(limit, [], [], 0, 0)
  }

  /** One acquire: the cache head if anything is idle, else a factory call
      that spends one unit of budget, else a fresh promise at the queue tail. */
  function Acquire<R>(p: Pool<R>): (r: (Pool<R>, Grant<R>))
    ensures r.1.Cached? <==> |p.cache| > 0
    ensures r.1.Create? <==> |p.cache| == 0 && p.limit > 0
    ensures r.1.Cached? ==>
              && r.1.resource == p.cache[0]
              && r.0.cache == p.cache[1..]
              && r.0.limit == p.limit && r.0.queue == p.queue && r.0.created == p.created
    ensures r.1.Create? ==>
              && r.0.limit + 1 == p.limit && r.0.created == p.created + 1
              && r.0.cache == p.cache && r.0.queue == p.queue
    ensures r.1.Enqueued? ==>
              && r.0.queue == p.queue + [r.1.waiter]
              && r.0.cache == p.cache && r.0.limit == p.limit && r.0.created == p.created
    ensures Valid(p) && r.1.Enqueued? ==> r.1.waiter !in p.queue
    ensures r.0.limit <= p.limit
    ensures Valid(p) ==> Valid(r.0)
  {
    if |p.cache| > 0 then
      (p.(cache := p.cache[1..]), Cached(p.cache[0]))
    else if p.limit > 0 then
      (p.(limit := p.limit - 1, created := p.created + 1), Create)
    else
      (p.(queue := p.queue + [p.nextWaiter], nextWaiter := p.nextWaiter + 1), Enqueued(p.nextWaiter))
  }

  /** One reclaim of `resource`: the oldest promise receives it directly if
      any is waiting, otherwise it joins the tail of the cache. */
  function Reclaim<R>(p: Pool<R>, resource: R): (r: (Pool<R>, Handoff<R>))
    ensures r.1.resource == resource
    ensures r.1.Resolved? <==> |p.queue| > 0
    ensures r.1.Resolved? ==>
              && p.queue == [r.1.waiter] + r.0.queue
              && r.0.cache == p.cache
    ensures r.1.Stored? ==> r.0.cache == p.cache + [resource] && r.0.queue == p.queue
    ensures r.0.limit == p.limit && r.0.created == p.created
    ensures Valid(p) ==> Valid(r.0)
  {
    if |p.queue| > 0 then
      (p.(queue := p.queue[1..]), Resolved(p.queue[0], resource))
    else
      (p.(cache := p.cache + [resource]), Stored(resource))
  }

  // ---------------------------------------------------------------------
  // Runs of many operations and the laws they obey.

  datatype Op<R> = AcquireOp | ReclaimOp(resource: R)

  datatype Event<R> = Granted(grant: Grant<R>) | Reclaimed(handoff: Handoff<R>)

  function Step<R>(p: Pool<R>, op: Op<R>): (Pool<R>, Event<R>) {
    match op
    case AcquireOp => var (p', g) := Acquire(p); (p', Granted(g))
    case ReclaimOp(x) => var (p', h) := Reclaim(p, x); (p', Reclaimed(h))
  }

  /** The pool after `ops` in submission order, with the event of each. */
  function Run<R>(p: Pool<R>, ops: seq<Op<R>>): (r: (Pool<R>, seq<Event<R>>))
    ensures |r.1| == |ops|
    decreases |ops|
  {
    if |ops| == 0 then (p, [])
    else
      var (p1, e) := Step(p, ops[0]);
      var (p2, t) := Run(p1, ops[1..]);
      (p2, [e] + t)
  }

  /** The part of each event of a trace that `f` keeps, in trace order. */
  function Project<R, T>(t: seq<Event<R>>, f: Event<R> -> seq<T>): seq<T>
    decreases |t|
  {
    if |t| == 0 then [] else f(t[0]) + Project(t[1..], f)
  }

  /** A projection distributes over the first event of a trace. */
  lemma ProjectUnfold<R, T>(e: Event<R>, t: seq<Event<R>>, f: Event<R> -> seq<T>)
    ensures Project([e] + t, f) == f(e) + Project(t, f)
  {
    assert ([e] + t)[1..] == t;
  }

  /** The waiter an event enqueues, if any. */
  function EnqueuedBy<R>(e: Event<R>): seq<WaiterId> {
    if e.Granted? && e.grant.Enqueued? then [e.grant.waiter] else []
  }

  /** The waiter an event resolves, if any. */
  function ResolvedBy<R>(e: Event<R>): seq<WaiterId> {
    if e.Reclaimed? && e.handoff.Resolved? then [e.handoff.waiter] else []
  }

  /** The resource an event stores into the cache, if any. */
  function StoredBy<R>(e: Event<R>): seq<R> {
    if e.Reclaimed? && e.handoff.Stored? then [e.handoff.resource] else []
  }

  /** The resource an event serves from the cache, if any. */
  function TakenBy<R>(e: Event<R>): seq<R> {
    if e.Granted? && e.grant.Cached? then [e.grant.resource] else []
  }

  /** The event itself if it is a factory call. */
  function CreatedBy<R>(e: Event<R>): seq<Event<R>> {
    if e.Granted? && e.grant.Create? then [e] else []
  }

  /** Waiters enqueued by a trace, in order. */
  function Enqueues<R>(t: seq<Event<R>>): seq<WaiterId> {
    Project(t, EnqueuedBy)
  }

  /** Waiters resolved by a trace, in order. */
  function Resolutions<R>(t: seq<Event<R>>): seq<WaiterId> {
    Project(t, ResolvedBy)
  }

  /** Resources stored into the cache by a trace, in order. */
  function Stores<R>(t: seq<Event<R>>): seq<R> {
    Project(t, StoredBy)
  }

  /** Resources served from the cache by a trace, in order. */
  function Takes<R>(t: seq<Event<R>>): seq<R> {
    Project(t, TakenBy)
  }

  /** Number of factory invocations in a trace. */
  function Creates<R>(t: seq<Event<R>>): nat {
    |Project(t, CreatedBy)|
  }

  /** The first event of a run, and the run of the remaining operations. */
  lemma RunUnfold<R>(p: Pool<R>, ops: seq<Op<R>>)
    requires |ops| > 0
    ensures Run(p, ops).0 == Run(Step(p, ops[0]).0, ops[1..]).0
    ensures Run(p, ops).1 == [Step(p, ops[0]).1] + Run(Step(p, ops[0]).0, ops[1..]).1
  {
  }

  lemma StepQueueLaw<R>(p: Pool<R>, op: Op<R>)
    ensures p.queue + EnqueuedBy(Step(p, op).1) == ResolvedBy(Step(p, op).1) + Step(p, op).0.queue
  {
  }

  lemma StepCacheLaw<R>(p: Pool<R>, op: Op<R>)
    ensures p.cache + StoredBy(Step(p, op).1) == TakenBy(Step(p, op).1) + Step(p, op).0.cache
  {
    var e := Step(p, op).1;
    if e.Granted? && e.grant.Cached? {
      assert p.cache == [e.grant.resource] + p.cache[1..];
    }
  }

  lemma StepBudgetLaw<R>(p: Pool<R>, op: Op<R>)
    ensures Step(p, op).0.limit + |CreatedBy(Step(p, op).1)| == p.limit
    ensures Step(p, op).0.created == p.created + |CreatedBy(Step(p, op).1)|
  {
  }

  /** Two conservation steps compose: what goes in across both equals
      what comes out across both. */
  lemma Chain<T>(before: seq<T>, in1: seq<T>, in2: seq<T>, out1: seq<T>, out2: seq<T>, mid: seq<T>, after: seq<T>)
    requires before + in1 == out1 + mid
    requires mid + in2 == out2 + after
    ensures before + (in1 + in2) == (out1 + out2) + after
  {
    calc {
      before + (in1 + in2);
      (before + in1) + in2;
      (out1 + mid) + in2;
      out1 + (mid + in2);
      out1 + (out2 + after);
    }
  }

  /** The wait queue is FIFO across any run: the old queue followed by the
      waiters enqueued equals the waiters resolved followed by the new queue. */
  lemma {:induction false} QueueLaw<R>(p: Pool<R>, ops: seq<Op<R>>)
    ensures p.queue + Enqueues(Run(p, ops).1) == Resolutions(Run(p, ops).1) + Run(p, ops).0.queue
    decreases |ops|
  {
    if |ops| > 0 {
      var p1 := Step(p, ops[0]).0;
      var e := Step(p, ops[0]).1;
      var t1 := Run(p1, ops[1..]).1;
      RunUnfold(p, ops);
      ProjectUnfold(e, t1, EnqueuedBy);
      ProjectUnfold(e, t1, ResolvedBy);
      StepQueueLaw(p, ops[0]);
      QueueLaw(p1, ops[1..]);
      Chain(p.queue, EnqueuedBy(e), Enqueues(t1), ResolvedBy(e), Resolutions(t1), p1.queue, Run(p1, ops[1..]).0.queue);
    }
  }

  /** The idle cache is FIFO across any run: the old cache followed by the
      resources stored equals the resources served followed by the new cache. */
  lemma {:induction false} CacheLaw<R>(p: Pool<R>, ops: seq<Op<R>>)
    ensures p.cache + Stores(Run(p, ops).1) == Takes(Run(p, ops).1) + Run(p, ops).0.cache
    decreases |ops|
  {
    if |ops| > 0 {
      var p1 := Step(p, ops[0]).0;
      var e := Step(p, ops[0]).1;
      var t1 := Run(p1, ops[1..]).1;
      RunUnfold(p, ops);
      ProjectUnfold(e, t1, StoredBy);
      ProjectUnfold(e, t1, TakenBy);
      StepCacheLaw(p, ops[0]);
      CacheLaw(p1, ops[1..]);
      Chain(p.cache, StoredBy(e), Stores(t1), TakenBy(e), Takes(t1), p1.cache, Run(p1, ops[1..]).0.cache);
    }
  }

  /** Every factory call across any run spends exactly one unit of budget,
      and nothing ever gives budget back (not even a failed factory). */
  lemma {:induction false} BudgetLaw<R>(p: Pool<R>, ops: seq<Op<R>>)
    ensures Run(p, ops).0.limit + Creates(Run(p, ops).1) == p.limit
    ensures Run(p, ops).0.created == p.created + Creates(Run(p, ops).1)
    decreases |ops|
  {
    if |ops| > 0 {
      var p1 := Step(p, ops[0]).0;
      RunUnfold(p, ops);
      ProjectUnfold(Step(p, ops[0]).1, Run(p1, ops[1..]).1, CreatedBy);
      StepBudgetLaw(p, ops[0]);
      BudgetLaw(p1, ops[1..]);
    }
  }

  /** The standing invariant holds after any run from a valid pool. */
  lemma {:induction false} RunPreservesValid<R>(p: Pool<R>, ops: seq<Op<R>>)
    requires Valid(p)
    ensures Valid(Run(p, ops).0)
    decreases |ops|
  {
    if |ops| > 0 {
      var (p1, e) := Step(p, ops[0]);
      assert Valid(p1);
      RunPreservesValid(p1, ops[1..]);
    }
  }

  /** Capacity bound: a pool built with budget `n` invokes its factory at
      most `n` times over any sequence of acquires and reclaims. */
  lemma CapacityBound<R>(n: nat, ops: seq<Op<R>>)
    requires n <= UINT_MAX
    ensures Creates(Run(Init<R>(n), ops).1) <= n
    ensures Run(Init<R>(n), ops).0.created <= n
  {
    BudgetLaw(Init<R>(n), ops);
  }

  /** FIFO fairness: starting from a fresh pool, the waiters resolved so far
      are exactly the oldest enqueued ones, in arrival order, and those still
      waiting are the rest. */
  lemma FifoFairness<R>(n: nat, ops: seq<Op<R>>)
    requires n <= UINT_MAX
    ensures var (p', t) := Run(Init<R>(n), ops);
      Enqueues(t) == Resolutions(t) + p'.queue
  {
    QueueLaw(Init<R>(n), ops);
  }

  /** Cache reuse: with nobody waiting and nothing idle, a reclaimed
      resource is what the very next acquire returns, without a factory call. */
  lemma CacheReuse<R>(p: Pool<R>, x: R)
    requires |p.queue| == 0 && |p.cache| == 0
    ensures var q := Reclaim(p, x).0;
      Acquire(q).1 == Cached(x) && Acquire(q).0.limit == p.limit && Acquire(q).0.cache == []
  {
  }

  // ---------------------------------------------------------------------
  // Construction-time capacity reservation (`RDBC.swift:43-44`).

  /** The reservation cap of the source. */
  const RESERVE: nat := 1024

  /** Capacity hints for the cache and the queue. */
  datatype Reservation = Reservation(cache: nat, queue: nat)

  /** Swift's checked `UInt` multiplication: `None` where the program traps. */
  function MulChecked(a: nat, b: nat): (r: Option<nat>)
    ensures r.Some? <==> a * b <= UINT_MAX
    ensures r.Some? ==> r.value == a * b
  {
    if a * b <= UINT_MAX then Some(a * b) else None
  }

  /** The reservation exactly as the constructor computes it: `limit * 2` is
      evaluated in `UInt` before the minimum is taken, so `None` stands for
      the runtime trap. */
  function ReserveAsWritten(limit: nat): (r: Option<Reservation>)
    requires limit <= UINT_MAX
    ensures r.None? <==> 2 * limit > UINT_MAX
    ensures r.Some? ==> r.value.cache == Min(limit, RESERVE) && r.value.queue == Min(2 * limit, RESERVE)
  {
    match MulChecked(limit, 2)
    case None => None
    case Some(twice) => Some(Reservation(Min(limit, RESERVE), Min(twice, RESERVE)))
  }

  /** The default budget `UInt.max` makes the as-written constructor trap. */
  lemma DefaultLimitTraps()
    ensures ReserveAsWritten(UINT_MAX).None?
  {
  }

  /** Every budget above `UInt.max / 2` traps, not just the default. */
  lemma LargeLimitTraps(limit: nat)
    requires UINT_MAX / 2 < limit <= UINT_MAX
    ensures ReserveAsWritten(limit).None?
  {
  }

  /** The reservation computed without overflow: the doubling is only
      performed when it is below the cap. */
  function Reserve(limit: nat): (r: Reservation)
    requires limit <= UINT_MAX
    ensures r.cache == Min(limit, RESERVE)
    ensures r.queue == Min(2 * limit, RESERVE)
    ensures r.cache <= RESERVE && r.queue <= RESERVE
  {
    var cache := if limit <= RESERVE then limit else RESERVE;
    var queue := if limit <= RESERVE / 2 then limit * 2 else RESERVE;
    Reservation(cache, queue)
  }

  /** The corrected reservation agrees with the as-written one wherever the
      latter does not trap, and is defined for every `UInt` budget. */
  lemma ReserveAgrees(limit: nat)
    requires limit <= UINT_MAX
    ensures ReserveAsWritten(limit).Some? ==> ReserveAsWritten(limit).value == Reserve(limit)
    ensures ReserveAsWritten(limit).None? <==> limit > UINT_MAX / 2
  {
  }
}

=== FILE: result_sets.dfy ===
/** The `ResultSet` extension of `RDBC.swift`: draining `next()` into a
    sequence of rows, and zipping each row with the column names. A cursor
    is represented by the replies its successive `next()` calls give: a row,
    end-of-data, or the error the call threw. */
module ResultSets {
  import opened Results

  /** One reply of `next()`: a row, end-of-data (`nil`), or a thrown error. */
  type Reply<T, E> = Result<Option<T>, E>

  /** What draining a cursor comes to: the rows read before end-of-data, the
      error a `next()` threw (the rows read so far are dropped), or
      `Unfinished` when the replies ran out before either happened. */
  datatype Drain<T, E> = Drained(rows: seq<T>) | Thrown(error: E) | Unfinished

  /** `accumulate(rows:)`: keep asking for the next row until end-of-data or
      an error. */
  function Accumulate<T, E>(rows: seq<T>, replies: seq<Reply<T, E>>): (r: Drain<T, E>)
    ensures r.Drained? ==> |rows| <= |r.rows| && r.rows[..|rows|] == rows
    ensures r.Drained? ==> |r.rows| - |rows| < |replies|
    decreases |replies|
  {
    if |replies| == 0 then Unfinished
    else
      match replies[0]
      case Err(e) => Thrown(e)
      case Ok(None) => Drained(rows)
      case Ok(Some(row)) => Accumulate(rows + [row], replies[1..])
  }

  /** Reference definition: the replies of a cursor that yields `rows`. */
  function Yielded<T, E>(rows: seq<T>): (t: seq<Reply<T, E>>)
    ensures |t| == |rows|
    ensures forall i :: 0 <= i < |rows| ==> t[i] == Ok(Some(rows[i]))
  {
    seq(|rows|, i requires 0 <= i < |rows| => Ok(Some(rows[i])))
  }

  /** Reference definition: the replies of a cursor that yields `rows` and
      then reports end-of-data. */
  function Terminated<T, E>(rows: seq<T>): (t: seq<Reply<T, E>>)
    ensures |t| == |rows| + 1 && t[|rows|] == Ok(None)
    ensures forall i :: 0 <= i < |rows| ==> t[i] == Ok(Some(rows[i]))
  {
    Yielded(rows) + [Ok(None)]
  }

  /** Every reply is a row: neither end-of-data nor an error. */
  predicate AllRows<T, E>(replies: seq<Reply<T, E>>) {
    forall i :: 0 <= i < |replies| ==> replies[i].Ok? && replies[i].value.Some?
  }

  /** Rows yielded before anything else are simply appended. */
  lemma {:induction false} AccumulateYielded<T, E>(acc: seq<T>, rows: seq<T>, rest: seq<Reply<T, E>>)
    ensures Accumulate(acc, Yielded(rows) + rest) == Accumulate(acc + rows, rest)
    decreases |rows|
  {
    var replies := Yielded(rows) + rest;
    if |rows| == 0 {
      assert replies == rest;
      assert acc + rows == acc;
    } else {
      assert replies[0] == Ok(Some(rows[0]));
      assert replies[1..] == Yielded(rows[1..]) + rest;
      AccumulateYielded(acc + [rows[0]], rows[1..], rest);
      assert acc + [rows[0]] + rows[1..] == acc + rows;
    }
  }

  /** The converse, in three parts: whatever `accumulate` stops on, the
      replies show it. Rows come with the end-of-data after them. */
  lemma {:induction false} AccumulateDrained<T, E>(acc: seq<T>, replies: seq<Reply<T, E>>)
    requires Accumulate(acc, replies).Drained?
    ensures var out := Accumulate(acc, replies).rows;
      |acc| <= |out| && Terminated(out[|acc|..]) <= replies
    decreases |replies|
  {
    var out := Accumulate(acc, replies).rows;
    match replies[0]
    case Ok(None) =>
      assert out == acc;
      assert Terminated<T, E>(out[|acc|..]) == [Ok(None)];
    case Ok(Some(row)) =>
      AccumulateDrained(acc + [row], replies[1..]);
      var rest := out[|acc| + 1..];
      assert out[..|acc| + 1] == acc + [row];
      assert out[|acc|..] == [row] + rest;
      assert Terminated(rest) <= replies[1..];
      assert Terminated<T, E>(out[|acc|..]) == [Ok(Some(row))] + Terminated(rest);
  }

  /** An error is the first reply that is not a row. */
  lemma {:induction false} AccumulateThrown<T, E>(acc: seq<T>, replies: seq<Reply<T, E>>)
    requires Accumulate(acc, replies).Thrown?
    ensures exists k :: 0 <= k < |replies| && replies[k] == Err(Accumulate(acc, replies).error) && AllRows(replies[..k])
    decreases |replies|
  {
    var e := Accumulate(acc, replies).error;
    match replies[0]
    case Err(_) =>
      assert replies[0] == Err(e) && AllRows(replies[..0]);
    case Ok(Some(row)) =>
      var tail := replies[1..];
      AccumulateThrown(acc + [row], tail);
      var k :| 0 <= k < |tail| && tail[k] == Err(e) && AllRows(tail[..k]);
      assert replies[..k + 1] == [replies[0]] + tail[..k];
      assert replies[k + 1] == Err(e) && AllRows(replies[..k + 1]);
  }

  /** Running out of replies means every reply was a row. */
  lemma {:induction false} AccumulateUnfinished<T, E>(acc: seq<T>, replies: seq<Reply<T, E>>)
    requires Accumulate(acc, replies).Unfinished?
    ensures AllRows(replies)
    decreases |replies|
  {
    if |replies| > 0 {
      match replies[0]
      case Ok(Some(row)) =>
        AccumulateUnfinished(acc + [row], replies[1..]);
        assert replies == [replies[0]] + replies[1..];
    }
  }

  /** `rows()`: whatever it returns is what the replies show. The rows
      come with the end-of-data that follows them; an error is the first
      reply that is not a row; `Unfinished` means every reply was a row. */
  function Rows<T, E>(replies: seq<Reply<T, E>>): (r: Drain<T, E>)
    ensures r.Drained? ==> Terminated(r.rows) <= replies
    ensures r.Thrown? ==> exists k :: 0 <= k < |replies| && replies[k] == Err(r.error) && AllRows(replies[..k])
    ensures r.Unfinished? ==> AllRows(replies)
  {
    var d := Accumulate([], replies);
    if d.Drained? then
      AccumulateDrained([], replies);
      assert d.rows[0..] == d.rows;
      d
    else if d.Thrown? then
      AccumulateThrown([], replies);
      d
    else
      AccumulateUnfinished([], replies);
      d
  }

  /** `rows()` returns exactly the rows a cursor yields before its first
      end-of-data, whatever would follow it. */
  lemma RowsOfTerminated<T, E>(rows: seq<T>, rest: seq<Reply<T, E>>)
    ensures Rows(Terminated(rows) + rest) == Drained(rows)
  {
    assert Terminated(rows) + rest == Yielded(rows) + ([Ok(None)] + rest);
    AccumulateYielded([], rows, [Ok(None)] + rest);
    assert [] + rows == rows;
  }

  /** A `next()` that throws makes `rows()` fail with that error, and the
      rows read before it are dropped. */
  lemma RowsOfFailure<T, E>(rows: seq<T>, e: E, rest: seq<Reply<T, E>>)
    ensures Rows(Yielded(rows) + [Err(e)] + rest) == Thrown(e)
  {
    assert Yielded(rows) + [Err(e)] + rest == Yielded(rows) + ([Err(e)] + rest);
    AccumulateYielded([], rows, [Err(e)] + rest);
  }

  /** Replies that are all rows leave `rows()` unfinished. */
  lemma RowsOfPartial<T, E>(rows: seq<T>)
    ensures Rows(Yielded<T, E>(rows)) == Unfinished
  {
    assert Yielded<T, E>(rows) + [] == Yielded(rows);
    AccumulateYielded<T, E>([], rows, []);
  }

  // ---------------------------------------------------------------------
  // `dictionaries()`.

  /** Pair the column names with a row's values by position. */
  function Zip<V>(cols: seq<string>, row: seq<V>): (z: seq<(string, V)>)
    ensures |z| == Min(|cols|, |row|)
    ensures forall i :: 0 <= i < |z| ==> z[i] == (cols[i], row[i])
  {
    seq(Min(|cols|, |row|), i requires 0 <= i < Min(|cols|, |row|) => (cols[i], row[i]))
  }

  /** Build a dictionary from pairs, a later pair replacing an earlier one
      with the same key. */
  function ToDictionary<V>(pairs: seq<(string, V)>): (m: map<string, V>)
    ensures m.Keys == set i | 0 <= i < |pairs| :: pairs[i].0
    decreases |pairs|
  {
    if |pairs| == 0 then map[]
    else
      var init := pairs[..|pairs| - 1];
      var last := pairs[|pairs| - 1];
      var m := ToDictionary(init);
      assert (set i | 0 <= i < |pairs| :: pairs[i].0) == (set i | 0 <= i < |init| :: init[i].0) + {last.0} by {
        forall i | 0 <= i < |init| ensures init[i] == pairs[i] { }
      }
      m[last.0 := last.1]
  }

  /** A pair whose key no later pair repeats determines that key's value. */
  lemma {:induction false} ToDictionaryValue<V>(pairs: seq<(string, V)>, i: nat)
    requires i < |pairs|
    requires forall j :: i < j < |pairs| ==> pairs[j].0 != pairs[i].0
    ensures pairs[i].0 in ToDictionary(pairs) && ToDictionary(pairs)[pairs[i].0] == pairs[i].1
    decreases |pairs|
  {
    var init := pairs[..|pairs| - 1];
    if i < |pairs| - 1 {
      assert init[i] == pairs[i];
      ToDictionaryValue(init, i);
    }
  }

  predicate Distinct(s: seq<string>) {
    forall i, j :: 0 <= i < j < |s| ==> s[i] != s[j]
  }

  /** One row as a dictionary from column name to value. */
  function RowDictionary<V>(cols: seq<string>, row: seq<V>): map<string, V> {
    ToDictionary(Zip(cols, row))
  }

  /** With distinct column names and a value for every column, a row's
      dictionary maps exactly the column names, each to the value at its
      position. */
  lemma RowDictionaryByPosition<V>(cols: seq<string>, row: seq<V>)
    requires Distinct(cols) && |cols| == |row|
    ensures RowDictionary(cols, row).Keys == set i | 0 <= i < |cols| :: cols[i]
    ensures forall i :: 0 <= i < |cols| ==> RowDictionary(cols, row)[cols[i]] == row[i]
  {
    var z := Zip(cols, row);
    assert (set i | 0 <= i < |z| :: z[i].0) == set i | 0 <= i < |cols| :: cols[i];
    forall i | 0 <= i < |cols|
      ensures RowDictionary(cols, row)[cols[i]] == row[i]
    {
      ToDictionaryValue(z, i);
    }
  }

  /** `dictionaries()`: ask for the column names, then drain the rows and
      zip each with them. A failing `columns` fails the whole call before
      any row is read. */
  function Dictionaries<V, E>(columns: Result<seq<string>, E>, replies: seq<Reply<seq<V>, E>>): (r: Drain<map<string, V>, E>)
    ensures columns.Err? ==> r == Thrown(columns.error)
    ensures columns.Ok? ==> (r.Drained? <==> Rows(replies).Drained?) && (r.Thrown? <==> Rows(replies).Thrown?)
    ensures columns.Ok? && r.Thrown? ==> r.error == Rows(replies).error
    ensures columns.Ok? && r.Drained? ==>
              && |r.rows| == |Rows(replies).rows|
              && forall i :: 0 <= i < |r.rows| ==> r.rows[i] == RowDictionary(columns.value, Rows(replies).rows[i])
  {
    match columns
    case Err(e) => Thrown(e)
    case Ok(cols) =>
      match Rows(replies)
      case Drained(rows) => Drained(seq(|rows|, i requires 0 <= i < |rows| => RowDictionary(cols, rows[i])))
      case Thrown(e) => Thrown(e)
      case Unfinished => Unfinished
  }
}

=== FILE: results.dfy ===
/** Optional values and success/failure values, the two shapes the pool and
    the registry use in place of Swift's optionals and thrown errors. */
module Results {

  /** Swift's `T?`. */
  datatype Option<+T> = None | Some(value: T)

  /** A value or the error a Swift `throws` function would have raised. */
  datatype Result<+T, +E> = Ok(value: T) | Err(error: E)

  /** An error a driver, a connection or a cursor throws. Only its
      description is kept; the registry's own errors are `FrameworkError`. */
  datatype DriverError = DriverError(description: string)

  /** Swift's `UInt` on a 64-bit platform. */
  const UINT_MAX: nat := 0xFFFF_FFFF_FFFF_FFFF

  type UInt = n: nat | n <= UINT_MAX

  function Max(a: nat, b: nat): nat {
    if a >= b then a else b
  }

  function Min(a: nat, b: nat): nat {
    if a <= b then a else b
  }
}
